=== FILE: README.md ===
# Assembly loader model

A Dafny model of how the Q# compiler's `AssemblyLoader` recovers compiled Q#
content from a referenced .NET assembly, and of two small dictionary
extensions used beside it.

An assembly built by the Q# compiler carries its whole compilation as an
embedded manifest resource under a reserved name. The loader finds that
resource through three checks: the CLI header maps a resources directory, a
manifest resource with the reserved name exists, and that resource's
`Implementation` is nil, meaning the resource lives in this file (section
22.24 of ECMA-335 Partition II). The resource offset plus the directory
offset, in 32-bit `int` arithmetic, gives the absolute offset. There a
little-endian `Int32` length is followed by exactly that many payload bytes.
The payload is BSON-deserialised into a `QsCompilation`. The load succeeds
only when the result is non-null and both its `Namespaces` and its
`EntryPoints` are initialised.

When that fails, or when the caller asks to ignore resources, the headers
overload falls back to the custom attributes of the Assembly row. The type
of each attribute is resolved through its constructor handle, which is a
MethodDef (its declaring TypeDef) or a MemberRef (its parent TypeRef); see
section 22.10 of ECMA-335 Partition II. Records whose namespace does
not start with `Microsoft.Quantum` are dropped. For the rest, the two prolog
bytes of the value blob are skipped and one SerString is read: a PackedLen
compressed integer (section 23.2), then that many UTF-8 bytes, or 0xFF for
the null string (section 23.3). A record whose string cannot be read is
dropped. The others are kept in table order.

The PE and metadata parsing is not modelled: the model works on an
already-parsed view (`Metadata.PEFile`). That view holds the optional
resources directory offset, the image bytes, and the metadata tables the
loader consults. Table rows are 0-based indices. The BSON deserializer, the
file-existence check and the URI-to-file-id conversion are parameters. The
exception callback is a flag, and every outcome records the exceptions
handed to the callback.

Files: `wrappers.dfy` (Option, Result), `metadata.dfy` (the parsed
view, exceptions, 32-bit narrowing), `blob.dfy` (bounds-checked readers,
each with an encoder and a round-trip lemma), `syntax_tree.dfy`
(LoadSyntaxTree), `resources.dfy` (Resources, the three-way check,
payload extraction, FromResource), `select.dfy` (SelectNotNull),
`attributes.dfy` (GetAttributeType, GetAttribute, LoadHeaderAttributes),
`loader.dfy` (both LoadReferencedAssembly overloads), `dictionaries.dfy`
(TryAdd, GetValueOrDefault).

The code behaves as follows in cases a reader might not expect:
- The headers overload has no `try`. So an out-of-range payload, a
  duplicated resource name or a failing attribute record escapes as an
  exception; the load does not return false.
- A resource that is found but fails to deserialise makes `FromResource`
  return false. The headers overload then falls back to the attributes,
  like when there is no resource at all.
- After the fallback the result is `ignoreDllResources || !attributes.Any()`.
  When resources are not ignored, finding zero attributes therefore counts
  as success and finding some counts as failure. With `ignoreDllResources`
  the result is true whatever is found.
- The length prefix is read as a signed `Int32`, so a negative length fails
  the range check.
- A null SerString (0xFF) is read successfully, so its record is kept, with
  a null argument.

## Model

| member | source | states |
|---|---|---|
| Metadata.ToInt32 | src/QsCompiler/CompilationManager/AssemblyLoader.cs:156 | the unchecked `(int)` narrowing and `int` addition: the result is the 32-bit value congruent to the input modulo 2^32, and the input itself when it fits |
| Blob.GetContent | src/QsCompiler/CompilationManager/AssemblyLoader.cs:159-160 | reading `length` bytes at `start` succeeds iff both are non-negative and the range lies in the image; the bytes returned are the image's bytes at those positions; otherwise it throws |
| Blob.ReadInt32 | src/QsCompiler/CompilationManager/AssemblyLoader.cs:159 | `BitConverter.ToInt32` on the 4-byte prefix: the signed 32-bit value congruent modulo 2^32 to the little-endian value of the four bytes |
| Blob.ReadEncodeInt32 | src/QsCompiler/CompilationManager/AssemblyLoader.cs:159 | reading the little-endian Int32 length back from its four-byte encoding gives the length written, whatever follows |
| Blob.EncodeReadInt32 | src/QsCompiler/CompilationManager/AssemblyLoader.cs:159 | every four bytes are the encoding of the Int32 they are read as, so the length read is a bijection on 4-byte prefixes |
| Blob.ReadUInt16 | src/QsCompiler/CompilationManager/AssemblyLoader.cs:206 | the prolog read succeeds iff the blob has two bytes, and yields their little-endian value; a shorter blob throws |
| Blob.TryReadCompressedInteger | src/QsCompiler/CompilationManager/AssemblyLoader.cs:209 | the PackedLen read fails exactly on an empty blob, a first byte with three leading one bits, or an encoding running past the end; otherwise the header byte fixes the size (1 below 0x80, 2 below 0xC0, else 4) and the value is the big-endian value of those bytes minus their length tag, at most 0x1FFFFFFF; non-shortest encodings included |
| Blob.ReadEncodeCompressedInteger | src/QsCompiler/CompilationManager/AssemblyLoader.cs:209 | decoding the compressed encoding of `n` yields `n` and consumes exactly the encoding |
| Blob.ReadSerializedString | src/QsCompiler/CompilationManager/AssemblyLoader.cs:209 | yields the null string iff no PackedLen is readable and the first byte is 0xFF; otherwise yields the bytes after the PackedLen; fails iff the string runs past the end or the first byte is neither |
| Blob.ReadEncodeSerializedString | src/QsCompiler/CompilationManager/AssemblyLoader.cs:209 | reading an encoded SerString gives it back and consumes exactly its encoding |
| Blob.ReadSerializedStringPrefix | src/QsCompiler/CompilationManager/AssemblyLoader.cs:209 | a successful string read depends only on the bytes it consumes |
| SyntaxTreeLoader.LoadSyntaxTree | src/QsCompiler/CompilationManager/AssemblyLoader.cs:98-115 | true iff the deserializer returns a compilation with initialised namespaces and entry points; the out compilation is null only when nothing was returned; only a thrown exception is reported, and only to a given callback |
| SyntaxTreeLoader.CallbackDoesNotChangeLoad | src/QsCompiler/CompilationManager/AssemblyLoader.cs:110-114 | whether a callback is given changes neither the boolean nor the compilation |
| SyntaxTreeLoader.EmptyCompilationLoads | src/QsCompiler/CompilationManager/AssemblyLoader.cs:108 | an empty but initialised compilation counts as loaded |
| SyntaxTreeLoader.DeserializedCompilationLoads | src/QsCompiler/CompilationManager/AssemblyLoader.cs:107-108 | a payload the deserializer maps to a defined compilation loads as that compilation with nothing reported (no serialisation round trip is claimed) |
| ResourceLocator.Resources | src/QsCompiler/CompilationManager/AssemblyLoader.cs:120-125 | the resource dictionary is built iff resource names are distinct; its keys are the names and each maps to its resource; otherwise it throws naming a duplicated name |
| ResourceLocator.LocateResource | src/QsCompiler/CompilationManager/AssemblyLoader.cs:144-150 | no embedded resource iff there is no directory offset or no local resource with the reserved name; a found resource has the reserved name and a nil implementation; the table only throws when the directory offset exists, and then throws the table's duplicate-name exception |
| ResourceLocator.AbsoluteOffset | src/QsCompiler/CompilationManager/AssemblyLoader.cs:156 | the absolute offset is the resource offset plus the directory offset modulo 2^32, and exactly their sum when it fits in an `int` |
| ResourceLocator.ExtractPayload | src/QsCompiler/CompilationManager/AssemblyLoader.cs:158-160 | succeeds iff the 4-byte prefix is in range, its Int32 value `L` is non-negative and the `L` bytes after it are in range; the payload is exactly those `L` bytes; no truncation |
| ResourceLocator.ExtractWrittenPayload | src/QsCompiler/CompilationManager/AssemblyLoader.cs:158-160 | a payload written with its length prefix at some offset is extracted exactly from that offset |
| ResourceLocator.FromResource | src/QsCompiler/CompilationManager/AssemblyLoader.cs:133-162 | false with no compilation and no report when there is no embedded payload; throws iff the table or the payload read throws, with the table's duplicate-name exception or the range exception respectively; on the embedded path the outcome is exactly LoadSyntaxTree of the extracted payload; true only with a defined compilation |
| ResourceLocator.EmbeddedLoadFailures | src/QsCompiler/CompilationManager/AssemblyLoader.cs:133-162 | once the payload is extracted, a throwing deserializer gives false, no compilation and its exception for a given callback; a null result gives false and no compilation; an undefined compilation gives false with that compilation |
| ResourceLocator.ThreeWayCheckFailsAlike | src/QsCompiler/CompilationManager/AssemblyLoader.cs:145-150 | each of the three failing checks gives the same outcome, whatever the image holds |
| ResourceLocator.EmbeddedCompilationLoads | src/QsCompiler/CompilationManager/AssemblyLoader.cs:144-161 | a local resource with the reserved name whose length-prefixed payload deserialises to a defined compilation is loaded as that compilation |
| AttributeReader.GetAttributeType | src/QsCompiler/CompilationManager/AssemblyLoader.cs:173-191 | null iff the handle is neither a MethodDef nor a MemberRef; a MethodDef whose row and declaring type exist gives that TypeDef's namespace and name, a MemberRef whose row and TypeRef parent exist gives the TypeRef's; a non-TypeRef parent fails the cast; a handle to a missing row throws BadHandle, and nothing else does |
| AttributeReader.GetAttribute | src/QsCompiler/CompilationManager/AssemblyLoader.cs:196-218 | an unresolved type fails Verify; a type outside the Microsoft.Quantum prefix gives null; otherwise a blob under two bytes throws, a failed string read gives null, and a good one gives (type name, string) |
| AttributeReader.EncodedAttributeIsRead | src/QsCompiler/CompilationManager/AssemblyLoader.cs:205-210 | a Q# attribute whose blob is a prolog and an encoded string yields that string |
| AttributeReader.LoadHeaderAttributes | src/QsCompiler/CompilationManager/AssemblyLoader.cs:226-233 | succeeds iff every record is handled without an exception; never yields more entries than records |
| AttributeReader.HeaderAttributesFirstError | src/QsCompiler/CompilationManager/AssemblyLoader.cs:229-232 | a failed load throws the exception of the first failing record, every earlier record having been handled |
| AttributeReader.HeaderAttributesInTableOrder | src/QsCompiler/CompilationManager/AssemblyLoader.cs:229-232 | the entries are exactly the non-null results of the records, in table order, none merged or dropped |
| Enumeration.SelectNotNull | src/QsCompiler/CompilationManager/AssemblyLoader.cs:229-232 | the mapped, null-free sequence exists iff no element throws; it is at most as long as the input |
| Enumeration.SelectFirstError | src/QsCompiler/CompilationManager/AssemblyLoader.cs:229-232 | a failed enumeration fails with the exception of its first failing element |
| Enumeration.SelectedInOrder | src/QsCompiler/CompilationManager/AssemblyLoader.cs:231 | the output is the non-null results in input order: increasing source indices, and every non-null result present |
| Enumeration.SelectAppend | src/QsCompiler/CompilationManager/AssemblyLoader.cs:229-232 | the output for a concatenation is the output for the first part followed by that for the second |
| Enumeration.NoDeduplication | src/QsCompiler/CompilationManager/AssemblyLoader.cs:229-232 | a repeated record yields its entry twice |
| AssemblyLoader.LoadedNamespaces | src/QsCompiler/CompilationManager/AssemblyLoader.cs:54 | `compilation?.Namespaces ?? Empty`: the compilation's namespaces when it has an initialised array, and empty when there is no compilation; an uninitialised array also gives empty, where the code would keep the default array, but after a successful load the array is always initialised |
| AssemblyLoader.HeadersFromAttributes | src/QsCompiler/CompilationManager/AssemblyLoader.cs:48-53 | the attribute headers hold the loaded attributes, and the result is true iff resources were ignored or no attribute was found |
| AssemblyLoader.LoadReferencedHeaders | src/QsCompiler/CompilationManager/AssemblyLoader.cs:38-56 | a bad URI or missing file throws; namespace headers iff resources are not ignored and FromResource returned true, and then the result is true and the namespaces are the compilation's; otherwise the attribute headers with result `ignore or no attributes`; past the file checks it throws iff FromResource throws on the resource route or the attribute read throws on the attribute route, and the exception is that one |
| AssemblyLoader.LoadReferencedCompilation | src/QsCompiler/CompilationManager/AssemblyLoader.cs:67-89 | throws only for a missing file; an exception from FromResource becomes false with no compilation and is reported to a given callback; true only with a defined compilation |
| AssemblyLoader.AttributeExceptionEscapesHeaders | src/QsCompiler/CompilationManager/AssemblyLoader.cs:48-53 | on the attribute path, taken when resources are ignored or the resource yielded no compilation, an exception from an attribute record escapes the headers overload as itself |
| AssemblyLoader.IgnoringResourcesReadsAttributes | src/QsCompiler/CompilationManager/AssemblyLoader.cs:48-52 | ignoring resources gives the attribute headers and true, even with zero attributes and even when a resource is embedded |
| AssemblyLoader.MissingResourceFallsBack | src/QsCompiler/CompilationManager/AssemblyLoader.cs:48-52 | without an embedded payload the attributes are read, and the result is true iff none were found |
| AssemblyLoader.FailedDeserializationFallsBack | src/QsCompiler/CompilationManager/AssemblyLoader.cs:48-52 | a resource that does not deserialise to a defined compilation also falls back to the attributes |
| AssemblyLoader.ResourceExceptionEscapesHeaders | src/QsCompiler/CompilationManager/AssemblyLoader.cs:46-48 | an exception from FromResource escapes the headers overload |
| AssemblyLoader.EmbeddedCompilationGivesNamespaces | src/QsCompiler/CompilationManager/AssemblyLoader.cs:54-55 | a loaded compilation gives namespace headers made of its namespaces, and true |
| AssemblyLoader.FromResourceIgnoresCallback | src/QsCompiler/CompilationManager/AssemblyLoader.cs:133-161 | FromResource with and without a callback agrees on exceptions, boolean and compilation |
| AssemblyLoader.CallbackDoesNotChangeHeaders | src/QsCompiler/CompilationManager/AssemblyLoader.cs:38-55 | the callback changes neither the headers nor the boolean of the headers overload |
| AssemblyLoader.CompilationIgnoresAttributes | src/QsCompiler/CompilationManager/AssemblyLoader.cs:79-88 | the path overload never falls back: the custom attributes do not influence its result |
| AssemblyLoader.CallbackDoesNotChangeCompilation | src/QsCompiler/CompilationManager/AssemblyLoader.cs:79-88 | the callback changes neither the boolean nor the compilation of the path overload |
| DictionaryExtensions.TryAdd | src/QsCompiler/Compiler/IDictionaryExtensions.cs:7-15 | true iff the key was absent; afterwards the key is present, an existing entry is kept unchanged, an absent key maps to the value, and other keys are untouched |
| DictionaryExtensions.TryAddTwice | src/QsCompiler/Compiler/IDictionaryExtensions.cs:9-14 | a second call with the same key returns false and leaves the map as the first call did |
| DictionaryExtensions.TryAddKeepsExisting | src/QsCompiler/Compiler/IDictionaryExtensions.cs:9-10 | an existing value is never overwritten |
| ReadOnlyDictionaryExtensions.GetValueOrDefault | src/QsCompiler/Transformations/IReadOnlyDictionaryExtensions.cs:7-13 | total; the mapped value for a present key, the empty string for an absent one |
| ReadOnlyDictionaryExtensions.EmptyResultMeaning | src/QsCompiler/Transformations/IReadOnlyDictionaryExtensions.cs:9-12 | the result is empty iff the key is absent or maps to the empty string |
| ReadOnlyDictionaryExtensions.GetAfterTryAdd | src/QsCompiler/Transformations/IReadOnlyDictionaryExtensions.cs:7-13 | after TryAdd the key reads as its earlier value, or else the added value |
| ReadOnlyDictionaryExtensions.TryAddFramesOtherKeys | src/QsCompiler/Transformations/IReadOnlyDictionaryExtensions.cs:7-13 | TryAdd does not change what other keys read as |

## Left out

- File.Exists, File.OpenRead and stream disposal are I/O. They become a `fileExists` flag and `FileNotFound`.
- CompilationUnitManager.GetFileId is not part of this model. Its result is a parameter, and `None` stands for the URI it rejects.
- PEReader and MetadataReader parsing (PE headers, section table, metadata heaps and tables) is library code. Its output is the abstract `PEFile` view; handles are table indices, and a handle to a missing row throws `BadHandle`. Parse failures, such as `GetMetadataReader` on an image without metadata or a missing CLI header, are not modelled; the path overload would catch them and the headers overload would let them escape.
- The behaviour of PEMemoryBlock.GetContent and BlobReader is taken from their documented contracts, not from their code. That includes the BlobReader's removal of trailing NUL characters from a serialized string, which is not modelled.
- BSON deserialisation and the structure of QsCompilation are opaque. The deserializer is a function parameter, and the model keeps only whether namespaces and entry points are initialised.
- References.Headers is not part of this model. The two ways it is constructed are the two `Headers` variants.
- UTF-8 decoding of attribute strings is not modelled. Arguments stay as their bytes.
- The namespace test uses StartsWith under the invariant culture, but the model uses an ordinal prefix test. Culture-sensitive matching differs on characters the invariant culture ignores or treats as equivalent, and where the prefix would end inside a combining sequence (a combining mark right after `Microsoft.Quantum`). The model accepts such a match; the code may refuse it.
- Callbacks are modelled only by the exceptions handed to them. A callback that itself throws is not modelled.
- The memory cost of GetEntireImage is not modelled; only its `int` length bound is kept.
- BitConverter.ToInt32 is modelled for a little-endian machine only.
- The dictionary helpers use Dafny map membership, which matches the default ordinal key comparer. A dictionary built with another comparer, such as one that ignores case, is not modelled. The in-place `Add` is modelled as returning the updated map.

=== FILE: attributes.dfy ===
/** The attribute fallback: reading the (name, argument) pairs of the
    Q# custom attributes on the Assembly row (GetAttributeType, GetAttribute
    and LoadHeaderAttributes). */
module AttributeReader {
  import opened Wrappers
  import opened Metadata
  import opened Blob
  import opened Enumeration

  /** The (namespace, name) of an attribute's type. */
  datatype AttributeType = AttributeType(namespace: string, name: string)

  /** A recognised attribute: the name of its type and its single string
      constructor argument. */
  datatype HeaderAttribute = HeaderAttribute(name: string, argument: SerString)

  const QuantumNamespacePrefix: string := "Microsoft.Quantum"

  /** The type declaring the attribute's constructor: a MethodDef handle
      leads to its declaring TypeDef, a MemberRef handle to its parent
      TypeRef, and any other handle kind gives null. A MemberRef whose
      parent is not a TypeRef fails the cast; handles to missing rows
      throw. */
  function GetAttributeType(md: MetadataReader, attribute: CustomAttribute): (r: Result<Option<AttributeType>, Exception>)
    ensures r == Ok(None) <==> attribute.ctor.OtherHandle?
    ensures r.Ok? && r.value.Some? && attribute.ctor.MethodDefHandle? ==>
              && attribute.ctor.row < |md.methodDefinitions|
              && var t := md.methodDefinitions[attribute.ctor.row].declaringType;
                 t < |md.typeDefinitions|
                 && r.value.value == AttributeType(md.typeDefinitions[t].namespace, md.typeDefinitions[t].name)
    ensures r.Ok? && r.value.Some? && attribute.ctor.MemberRefHandle? ==>
              && attribute.ctor.row < |md.memberReferences|
              && var p := md.memberReferences[attribute.ctor.row].parent;
                 p.ParentTypeRef? && p.row < |md.typeReferences|
                 && r.value.value == AttributeType(md.typeReferences[p.row].namespace, md.typeReferences[p.row].name)
    ensures r.Err? && r.error == InvalidCast <==>
              && attribute.ctor.MemberRefHandle?
              && attribute.ctor.row < |md.memberReferences|
              && !md.memberReferences[attribute.ctor.row].parent.ParentTypeRef?
    ensures r.Err? ==> r.error in {BadHandle, InvalidCast}
    ensures attribute.ctor.MethodDefHandle? && attribute.ctor.row < |md.methodDefinitions|
            && md.methodDefinitions[attribute.ctor.row].declaringType < |md.typeDefinitions| ==>
              var t := md.methodDefinitions[attribute.ctor.row].declaringType;
              r == Ok(Some(AttributeType(md.typeDefinitions[t].namespace, md.typeDefinitions[t].name)))
    ensures attribute.ctor.MemberRefHandle? && attribute.ctor.row < |md.memberReferences|
            && md.memberReferences[attribute.ctor.row].parent.ParentTypeRef?
            && md.memberReferences[attribute.ctor.row].parent.row < |md.typeReferences| ==>
              var t := md.memberReferences[attribute.ctor.row].parent.row;
              r == Ok(Some(AttributeType(md.typeReferences[t].namespace, md.typeReferences[t].name)))
    ensures r == Err(BadHandle) <==>
              || (&& attribute.ctor.MethodDefHandle?
                  && (|| attribute.ctor.row >= |md.methodDefinitions|
                      || md.methodDefinitions[attribute.ctor.row].declaringType >= |md.typeDefinitions|))
              || (&& attribute.ctor.MemberRefHandle?
                  && (|| attribute.ctor.row >= |md.memberReferences|
                      || (&& md.memberReferences[attribute.ctor.row].parent.ParentTypeRef?
                          && md.memberReferences[attribute.ctor.row].parent.row >= |md.typeReferences|)))
  {
    match attribute.ctor
    case MethodDefHandle(row) =>
      if row >= |md.methodDefinitions| then Err(BadHandle)
      else
        var t := md.methodDefinitions[row].declaringType;
        if t >= |md.typeDefinitions| then Err(BadHandle)
        else Ok(Some(AttributeType(md.typeDefinitions[t].namespace, md.typeDefinitions[t].name)))
    case MemberRefHandle(row) =>
      if row >= |md.memberReferences| then Err(BadHandle)
      else
        (match md.memberReferences[row].parent
         case ParentTypeRef(t) =>
           if t >= |md.typeReferences| then Err(BadHandle)
           else Ok(Some(AttributeType(md.typeReferences[t].namespace, md.typeReferences[t].name)))
         case _ => Err(InvalidCast))
    case OtherHandle => Ok(None)
  }

  /** The attribute's type resolves to `t` and `t` lies in a namespace
      starting with "Microsoft.Quantum". */
  predicate IsQuantumAttribute(md: MetadataReader, attribute: CustomAttribute, t: AttributeType) {
    GetAttributeType(md, attribute) == Ok(Some(t)) && QuantumNamespacePrefix <= t.namespace
  }

  /** One record: an unresolvable type is a fatal Verify failure; a type
      outside the Q# namespaces gives null; otherwise the two prolog bytes
      are skipped (a shorter blob throws, since that read is outside the
      try) and the SerString after them is read, a failed read giving
      null. */
  function GetAttribute(md: MetadataReader, attribute: CustomAttribute): (r: Result<Option<HeaderAttribute>, Exception>)
    ensures GetAttributeType(md, attribute) == Ok(None) ==> r == Err(VerifyFailed)
    ensures GetAttributeType(md, attribute).Err? ==> r == Err(GetAttributeType(md, attribute).error)
    ensures forall t: AttributeType :: GetAttributeType(md, attribute) == Ok(Some(t)) && !(QuantumNamespacePrefix <= t.namespace) ==> r == Ok(None)
    ensures forall t: AttributeType :: IsQuantumAttribute(md, attribute, t) ==>
              if |attribute.value| < 2 then r == Err(BlobTooShort)
              else match ReadSerializedString(attribute.value[2..])
                   case Err(_) => r == Ok(None)
                   case Ok((s, _)) => r == Ok(Some(HeaderAttribute(t.name, s)))
  {
    var attrType :- GetAttributeType(md, attribute);
    if attrType.None? then Err(VerifyFailed)
    else if !(QuantumNamespacePrefix <= attrType.value.namespace) then Ok(None)
    else
      var _ :- ReadUInt16(attribute.value);
      match ReadSerializedString(attribute.value[2..])
      case Err(_) => Ok(None)
      case Ok((s, _)) => Ok(Some(HeaderAttribute(attrType.value.name, s)))
  }

  /** A Q# attribute whose blob is a two-byte prolog and an encoded string
      yields that string, whatever follows it. */
  lemma {:induction false} EncodedAttributeIsRead(md: MetadataReader, attribute: CustomAttribute, t: AttributeType,
                                                  prolog: seq<byte>, s: SerString, rest: seq<byte>)
    requires IsQuantumAttribute(md, attribute, t)
    requires |prolog| == 2 && (s.Utf8? ==> |s.bytes| <= MAX_COMPRESSED)
    requires attribute.value == prolog + EncodeSerializedString(s) + rest
    ensures GetAttribute(md, attribute) == Ok(Some(HeaderAttribute(t.name, s)))
  {
    assert attribute.value[2..] == EncodeSerializedString(s) + rest;
    ReadEncodeSerializedString(s, rest);
  }

  /** LoadHeaderAttributes: the custom attributes of the Assembly row,
      in table order, mapped through GetAttribute with nulls dropped; the
      first exception aborts the whole enumeration. */
  function LoadHeaderAttributes(md: MetadataReader): (r: Result<seq<HeaderAttribute>, Exception>)
    ensures r.Ok? <==> forall i :: 0 <= i < |md.assemblyAttributes| ==> GetAttribute(md, md.assemblyAttributes[i]).Ok?
    ensures r.Ok? ==> |r.value| <= |md.assemblyAttributes|
  {
    SelectNotNull((a: CustomAttribute) => GetAttribute(md, a), md.assemblyAttributes)
  }

  /** A failing record aborts the load with its own exception: the record
      at `i` fails and every record before it was handled. */
  lemma HeaderAttributesFirstError(md: MetadataReader) returns (i: nat)
    requires LoadHeaderAttributes(md).Err?
    ensures i < |md.assemblyAttributes|
    ensures GetAttribute(md, md.assemblyAttributes[i]) == Err(LoadHeaderAttributes(md).error)
    ensures forall j :: 0 <= j < i ==> GetAttribute(md, md.assemblyAttributes[j]).Ok?
  {
    var f := (a: CustomAttribute) => GetAttribute(md, a);
    i := SelectFirstError(f, md.assemblyAttributes);
    assert forall a :: f(a) == GetAttribute(md, a);
  }

  /** The header attributes are exactly the non-null results of the Q#
      attributes, in table order and with nothing merged: `idx` lists,
      increasing, the records that produced an entry, and every record that
      produced one is listed. */
  lemma HeaderAttributesInTableOrder(md: MetadataReader) returns (idx: seq<nat>)
    requires LoadHeaderAttributes(md).Ok?
    ensures var out := LoadHeaderAttributes(md).value;
            var attrs := md.assemblyAttributes;
            && |idx| == |out|
            && (forall k :: 0 <= k < |idx| ==> idx[k] < |attrs| && GetAttribute(md, attrs[idx[k]]) == Ok(Some(out[k])))
            && (forall k, l :: 0 <= k < l < |idx| ==> idx[k] < idx[l])
            && (forall i :: 0 <= i < |attrs| && GetAttribute(md, attrs[i]).Ok? && GetAttribute(md, attrs[i]).value.Some? ==> i in idx)
  {
    var f := (a: CustomAttribute) => GetAttribute(md, a);
    idx := SelectedInOrder(f, md.assemblyAttributes);
    assert forall a :: f(a) == GetAttribute(md, a);
  }
}

=== FILE: blob.dfy ===
/** Bounds-checked byte readers: the range check of PEMemoryBlock.GetContent,
    BitConverter.ToInt32 on a little-endian host, and the BlobReader calls
    used on custom-attribute value blobs (ECMA-335 Partition II, sections
    23.2 and 23.3). Each reader has an encoder as its partner. */
module Blob {
  import opened Wrappers
  import opened Metadata

  /** `length` bytes of `image` from `start`; out-of-range or negative
      arguments throw instead of truncating. */
  function GetContent(image: seq<byte>, start: int, length: int): (r: Result<seq<byte>, Exception>)
    ensures r.Ok? <==> 0 <= start && 0 <= length && start + length <= |image|
    ensures r.Err? ==> r.error == ContentOutOfBounds
    ensures r.Ok? ==> |r.value| == length
    ensures r.Ok? ==> forall i :: 0 <= i < length ==> r.value[i] == image[start + i]
  {
    if 0 <= start && 0 <= length && start + length <= |image| then
      Ok(image[start..start + length])
    else
      Err(ContentOutOfBounds)
  }

  // ---------------------------------------------------------------------
  // Four-byte little-endian Int32

  /** The unsigned value of four little-endian bytes. */
  function LittleEndianValue(b0: byte, b1: byte, b2: byte, b3: byte): (v: uint32)
  {
    b0 + 0x100 * b1 + 0x1_0000 * b2 + 0x100_0000 * b3
  }

  /** BitConverter.ToInt32(bytes, 0) on a little-endian machine. */
  function ReadInt32(bytes: seq<byte>): (v: int32)
    requires |bytes| >= 4
    ensures (v - LittleEndianValue(bytes[0], bytes[1], bytes[2], bytes[3])) % TWO_TO_THE_32 == 0
  {
    ToInt32(LittleEndianValue(bytes[0], bytes[1], bytes[2], bytes[3]))
  }

  /** The four bytes a little-endian writer emits for `v`. */
  function EncodeInt32(v: int32): (bytes: seq<byte>)
    ensures |bytes| == 4
  {
    var u := if v < 0 then v + TWO_TO_THE_32 else v;
    [u % 0x100, (u / 0x100) % 0x100, (u / 0x1_0000) % 0x100, u / 0x100_0000]
  }

  lemma LittleEndianDigits(u: uint32)
    ensures LittleEndianValue(u % 0x100, (u / 0x100) % 0x100, (u / 0x1_0000) % 0x100, u / 0x100_0000) == u
  {
    var q1 := u / 0x100;
    var q2 := q1 / 0x100;
    assert u == u % 0x100 + 0x100 * q1;
    assert q1 == q1 % 0x100 + 0x100 * q2;
    assert q2 == u / 0x1_0000;
    assert q2 == q2 % 0x100 + 0x100 * (q2 / 0x100);
    assert q2 / 0x100 == u / 0x100_0000;
  }

  /** Reading back what was written gives the original Int32. */
  lemma {:induction false} ReadEncodeInt32(v: int32, rest: seq<byte>)
    ensures ReadInt32(EncodeInt32(v) + rest) == v
  {
    var u := if v < 0 then v + TWO_TO_THE_32 else v;
    LittleEndianDigits(u);
    var b := EncodeInt32(v) + rest;
    assert b[0] == u % 0x100 && b[1] == (u / 0x100) % 0x100;
    assert b[2] == (u / 0x1_0000) % 0x100 && b[3] == u / 0x100_0000;
  }

  /** A number written as a low byte plus 0x100 times a rest splits back
      into that byte and that rest. */
  lemma SplitLowByte(u: int, low: byte, high: int)
    requires u == low + 0x100 * high
    ensures u % 0x100 == low && u / 0x100 == high
  {
  }

  /** Every four bytes are the encoding of the Int32 they are read as. */
  lemma {:induction false} EncodeReadInt32(bytes: seq<byte>)
    requires |bytes| == 4
    ensures EncodeInt32(ReadInt32(bytes)) == bytes
  {
    var u := LittleEndianValue(bytes[0], bytes[1], bytes[2], bytes[3]);
    var v := ReadInt32(bytes);
    assert (if v < 0 then v + TWO_TO_THE_32 else v) == u;
    var r1: int := bytes[1] as int + 0x100 * (bytes[2] as int + 0x100 * bytes[3] as int);
    var r2: int := bytes[2] as int + 0x100 * bytes[3] as int;
    SplitLowByte(u, bytes[0], r1);
    SplitLowByte(r1, bytes[1], r2);
    SplitLowByte(r2, bytes[2], bytes[3]);
    assert u / 0x1_0000 == r2 by { assert u / 0x1_0000 == (u / 0x100) / 0x100; }
    assert u / 0x100_0000 == bytes[3] by { assert u / 0x100_0000 == (u / 0x1_0000) / 0x100; }
  }

  // ---------------------------------------------------------------------
  // BlobReader.ReadUInt16

  /** The little-endian UInt16 at the start of `blob` and the two bytes it
      consumes; a blob shorter than two bytes throws. */
  function ReadUInt16(blob: seq<byte>): (r: Result<nat, Exception>)
    ensures r.Ok? <==> |blob| >= 2
    ensures r.Err? ==> r.error == BlobTooShort
    ensures r.Ok? ==> r.value < 0x1_0000 && r.value % 0x100 == blob[0] && r.value / 0x100 == blob[1]
  {
    if |blob| < 2 then Err(BlobTooShort) else Ok(blob[0] as int + 0x100 * (blob[1] as int))
  }

  // ---------------------------------------------------------------------
  // Compressed unsigned integers (ECMA-335 Partition II, section 23.2)

  const MAX_COMPRESSED: nat := 0x1FFF_FFFF

  /** The unsigned value of `bytes` read most significant byte first. */
  function BigEndianValue(bytes: seq<byte>): nat
  {
    if |bytes| == 0 then 0 else 0x100 * BigEndianValue(bytes[..|bytes| - 1]) + bytes[|bytes| - 1]
  }

  /** The length tag a compressed encoding of `size` bytes carries in its
      high bits: none, 10 or 110. */
  function CompressedTag(size: nat): nat
  {
    if size == 1 then 0 else if size == 2 then 0x8000 else 0xC000_0000
  }

  /** BigEndianValue unrolled on the two- and four-byte prefixes. */
  lemma BigEndianPrefixes(blob: seq<byte>)
    requires |blob| >= 2
    ensures BigEndianValue(blob[..1]) == blob[0]
    ensures BigEndianValue(blob[..2]) == 0x100 * (blob[0] as int) + blob[1] as int
    ensures |blob| >= 4 ==> BigEndianValue(blob[..4]) == 0x100_0000 * (blob[0] as int) + 0x1_0000 * (blob[1] as int)
                                                         + 0x100 * (blob[2] as int) + blob[3] as int
  {
    assert blob[..1][..0] == [];
    assert blob[..2][..1] == blob[..1];
    if |blob| >= 4 {
      assert blob[..4][..3] == blob[..3];
      assert blob[..3][..2] == blob[..2];
    }
  }

  /** BlobReader.TryReadCompressedInteger: the value and the number of bytes
      its encoding takes. `None` (nothing consumed) when no byte is left,
      when the first byte starts with three one bits, or when the encoding
      runs past the end. */
  function TryReadCompressedInteger(blob: seq<byte>): (r: Option<(nat, nat)>)
    ensures r.Some? ==> r.value.1 in {1, 2, 4} && r.value.1 <= |blob|
    ensures r.Some? ==> r.value.0 <= MAX_COMPRESSED
    ensures r.None? <==> |blob| == 0 || blob[0] >= 0xE0
                         || (0x80 <= blob[0] < 0xC0 && |blob| < 2)
                         || (0xC0 <= blob[0] < 0xE0 && |blob| < 4)
    ensures r.Some? ==> r.value.1 == (if blob[0] < 0x80 then 1 else if blob[0] < 0xC0 then 2 else 4)
    ensures r.Some? ==> r.value.0 == BigEndianValue(blob[..r.value.1]) - CompressedTag(r.value.1)
  {
    if |blob| == 0 then None
    else if blob[0] < 0x80 then
      assert blob[..1][..0] == [];
      Some((blob[0], 1))
    else if blob[0] < 0xC0 then
      if |blob| < 2 then None
      else
        BigEndianPrefixes(blob);
        Some(((blob[0] as int - 0x80) * 0x100 + blob[1] as int, 2))
    else if blob[0] < 0xE0 then
      if |blob| < 4 then None
      else
        BigEndianPrefixes(blob);
        Some(((blob[0] as int - 0xC0) * 0x100_0000 + (blob[1] as int) * 0x1_0000 + (blob[2] as int) * 0x100 + blob[3] as int, 4))
    else None
  }

  /** The shortest compressed encoding of `n`. */
  function EncodeCompressedInteger(n: nat): (bytes: seq<byte>)
    requires n <= MAX_COMPRESSED
    ensures |bytes| in {1, 2, 4}
  {
    if n < 0x80 then [n]
    else if n < 0x4000 then [0x80 + n / 0x100, n % 0x100]
    else [0xC0 + n / 0x100_0000, (n / 0x1_0000) % 0x100, (n / 0x100) % 0x100, n % 0x100]
  }

  /** Decoding an encoded integer gives it back and consumes exactly its
      encoding, whatever follows it. */
  lemma {:induction false} ReadEncodeCompressedInteger(n: nat, rest: seq<byte>)
    requires n <= MAX_COMPRESSED
    ensures TryReadCompressedInteger(EncodeCompressedInteger(n) + rest) == Some((n, |EncodeCompressedInteger(n)|))
  {
    var e := EncodeCompressedInteger(n);
    var b := e + rest;
    if n < 0x80 {
      assert b[0] == n;
    } else if n < 0x4000 {
      assert b[0] == 0x80 + n / 0x100 && b[1] == n % 0x100;
    } else {
      assert b[0] == 0xC0 + n / 0x100_0000;
      assert b[1] == (n / 0x1_0000) % 0x100 && b[2] == (n / 0x100) % 0x100 && b[3] == n % 0x100;
      var q1 := n / 0x100;
      assert n == n % 0x100 + 0x100 * q1;
      assert q1 == q1 % 0x100 + 0x100 * (q1 / 0x100);
      assert q1 / 0x100 == n / 0x1_0000;
      var q2 := n / 0x1_0000;
      assert q2 == q2 % 0x100 + 0x100 * (q2 / 0x100);
      assert q2 / 0x100 == n / 0x100_0000;
    }
  }

  // ---------------------------------------------------------------------
  // SerString (ECMA-335 Partition II, section 23.3)

  /** A serialized string: the null string (the single byte 0xFF) or a
      PackedLen followed by that many UTF-8 bytes, kept undecoded. */
  datatype SerString = NullString | Utf8(bytes: seq<byte>)

  /** BlobReader.ReadSerializedString: the string at the start of `blob`
      and the number of bytes it takes. */
  function ReadSerializedString(blob: seq<byte>): (r: Result<(SerString, nat), Exception>)
    ensures r.Ok? ==> r.value.1 <= |blob|
    ensures r.Ok? && r.value.0.NullString? <==> TryReadCompressedInteger(blob).None? && |blob| > 0 && blob[0] == 0xFF
    ensures r.Ok? && r.value.0.Utf8? ==>
              TryReadCompressedInteger(blob) == Some((|r.value.0.bytes|, r.value.1 - |r.value.0.bytes|))
              && r.value.0.bytes == blob[r.value.1 - |r.value.0.bytes|..r.value.1]
    ensures r.Err? <==> match TryReadCompressedInteger(blob)
                        case Some((n, k)) => k + n > |blob|
                        case None => |blob| == 0 || blob[0] != 0xFF
  {
    match TryReadCompressedInteger(blob)
    case Some((n, k)) =>
      if k + n <= |blob| then Ok((Utf8(blob[k..k + n]), k + n)) else Err(BlobTooShort)
    case None =>
      if |blob| == 0 then Err(BlobTooShort)
      else if blob[0] == 0xFF then Ok((NullString, 1))
      else Err(InvalidSerializedString)
  }

  /** The bytes a writer emits for a serialized string. */
  function EncodeSerializedString(s: SerString): (bytes: seq<byte>)
    requires s.Utf8? ==> |s.bytes| <= MAX_COMPRESSED
    ensures |bytes| >= 1
  {
    match s
    case NullString => [0xFF]
    case Utf8(b) => EncodeCompressedInteger(|b|) + b
  }

  /** Reading an encoded string gives it back, consuming exactly its
      encoding, whatever follows it. */
  lemma {:induction false} ReadEncodeSerializedString(s: SerString, rest: seq<byte>)
    requires s.Utf8? ==> |s.bytes| <= MAX_COMPRESSED
    ensures ReadSerializedString(EncodeSerializedString(s) + rest) == Ok((s, |EncodeSerializedString(s)|))
  {
    match s
    case NullString =>
      assert (EncodeSerializedString(s) + rest)[0] == 0xFF;
    case Utf8(b) =>
      var p := EncodeCompressedInteger(|b|);
      assert EncodeSerializedString(s) + rest == p + (b + rest);
      ReadEncodeCompressedInteger(|b|, b + rest);
      assert (p + (b + rest))[|p|..|p| + |b|] == b;
  }

  /** A compressed integer is read the same from any blob that starts with
      the bytes it takes. */
  lemma {:induction false} CompressedIntegerPrefix(blob: seq<byte>, other: seq<byte>)
    requires TryReadCompressedInteger(blob).Some?
    requires var h := TryReadCompressedInteger(blob).value.1; h <= |other| && other[..h] == blob[..h]
    ensures TryReadCompressedInteger(other) == TryReadCompressedInteger(blob)
  {
    var h := TryReadCompressedInteger(blob).value.1;
    assert other[0] == other[..h][0] == blob[..h][0] == blob[0];
    if h >= 2 {
      assert other[1] == other[..h][1] == blob[..h][1] == blob[1];
    }
    if h == 4 {
      assert other[2] == other[..h][2] == blob[..h][2] == blob[2];
      assert other[3] == other[..h][3] == blob[..h][3] == blob[3];
    }
  }

  /** A successful read depends only on the bytes it consumes: appending
      anything to them reads the same string. */
  lemma {:induction false} ReadSerializedStringPrefix(blob: seq<byte>, rest: seq<byte>)
    requires ReadSerializedString(blob).Ok?
    ensures var k := ReadSerializedString(blob).value.1;
            ReadSerializedString(blob[..k] + rest) == ReadSerializedString(blob)
  {
    var k := ReadSerializedString(blob).value.1;
    var b := blob[..k] + rest;
    assert b[..k] == blob[..k];
    match TryReadCompressedInteger(blob)
    case Some((n, h)) =>
      assert b[..h] == blob[..h] by {
        assert b[..h] == b[..k][..h] && blob[..h] == blob[..k][..h];
      }
      CompressedIntegerPrefix(blob, b);
      assert b[h..h + n] == blob[h..h + n] by {
        assert b[h..h + n] == b[..k][h..h + n] && blob[h..h + n] == blob[..k][h..h + n];
      }
    case None =>
      assert b[0] == blob[0];
      assert TryReadCompressedInteger(b).None?;
  }
}

=== FILE: dictionaries.dfy ===
/** The TryAdd extension on a string-to-string dictionary. */
module DictionaryExtensions {

  /** The dictionary after the call and whether the entry was added. */
  datatype TryAddResult = TryAddResult(dict: map<string, string>, added: bool)

  /** Adds `key` with `value` only when `key` is absent, and reports
      whether it did. */
  function TryAdd(dict: map<string, string>, key: string, value: string): (r: TryAddResult)
    ensures r.added <==> key !in dict
    ensures key in r.dict
    ensures key in dict ==> r.dict == dict
    ensures key !in dict ==> r.dict[key] == value
    ensures r.dict.Keys == dict.Keys + {key}
    ensures forall k :: k in dict && k != key ==> r.dict[k] == dict[k]
  {
    if key in dict then TryAddResult(dict, false)
    else TryAddResult(dict[key := value], true)
  }

  /** A second call with the same key adds nothing and changes nothing,
      whatever its value. */
  lemma TryAddTwice(dict: map<string, string>, key: string, value: string, other: string)
    ensures var first := TryAdd(dict, key, value);
            TryAdd(first.dict, key, other) == TryAddResult(first.dict, false)
  {
  }

  /** An existing entry is never overwritten. */
  lemma TryAddKeepsExisting(dict: map<string, string>, key: string, value: string)
    requires key in dict
    ensures TryAdd(dict, key, value).dict[key] == dict[key]
    ensures !TryAdd(dict, key, value).added
  {
  }
}

/** The GetValueOrDefault extension on a read-only string-to-string
    dictionary. */
module ReadOnlyDictionaryExtensions {
  import DictionaryExtensions

  /** The value of `key`, or the empty string when it is absent. Total:
      it accepts every key. */
  function GetValueOrDefault(dict: map<string, string>, key: string): (r: string)
    ensures key in dict ==> r == dict[key]
    ensures key !in dict ==> r == ""
  {
    if key in dict then dict[key] else ""
  }

  /** An empty result does not mean the key is absent: it means the key is
      absent or mapped to the empty string. */
  lemma EmptyResultMeaning(dict: map<string, string>, key: string)
    ensures GetValueOrDefault(dict, key) == "" <==> key !in dict || dict[key] == ""
  {
  }

  /** After TryAdd the key reads back as the value it already had, or else
      the value just added. */
  lemma GetAfterTryAdd(dict: map<string, string>, key: string, value: string)
    ensures GetValueOrDefault(DictionaryExtensions.TryAdd(dict, key, value).dict, key)
            == (if key in dict then dict[key] else value)
  {
  }

  /** Reading other keys is unaffected by TryAdd. */
  lemma TryAddFramesOtherKeys(dict: map<string, string>, key: string, value: string, other: string)
    requires other != key
    ensures GetValueOrDefault(DictionaryExtensions.TryAdd(dict, key, value).dict, other) == GetValueOrDefault(dict, other)
  {
  }
}

=== FILE: loader.dfy ===
/** The two public entry points of the assembly loader: loading the headers
    of a referenced assembly (with the attribute fallback) and loading its
    full compilation (without one). File-system access and the file id of a
    URI are parameters. */
module AssemblyLoader {
  import opened Wrappers
  import opened Metadata
  import opened SyntaxTreeLoader
  import opened ResourceLocator
  import opened AttributeReader

  /** The headers of a referenced assembly: read from its Q# attributes, or
      the namespaces of its embedded compilation. */
  datatype Headers =
    | AttributeHeaders(source: string, attributes: seq<HeaderAttribute>)
    | NamespaceHeaders(source: string, namespaces: seq<QsNamespace>)

  /** The headers, the returned boolean, and what the callback was handed. */
  datatype HeadersOutcome = HeadersOutcome(headers: Headers, success: bool, reported: seq<Exception>)

  /** The namespaces of a loaded compilation, empty when there is none.
      An uninitialised namespace array also gives the empty sequence; the
      headers overload only asks after a successful load, where the array
      is initialised. */
  function LoadedNamespaces(c: Option<QsCompilation>): (r: seq<QsNamespace>)
    ensures c.Some? && c.value.namespaces.Initialized? ==> r == c.value.namespaces.items
    ensures c.None? ==> r == []
    ensures c.Some? && c.value.namespaces.Default? ==> r == []
  {
    match c
    case Some(QsCompilation(Initialized(namespaces), _)) => namespaces
    case _ => []
  }

  /** The attribute path of the headers overload: the headers are the
      assembly's Q# attributes and the result is `ignoreDllResources` or
      "no attributes were found". */
  function HeadersFromAttributes(source: string, md: MetadataReader, ignoreDllResources: bool, reported: seq<Exception>): (r: Result<HeadersOutcome, Exception>)
    ensures r.Err? <==> LoadHeaderAttributes(md).Err?
    ensures r.Err? ==> r.error == LoadHeaderAttributes(md).error
    ensures r.Ok? ==> && r.value.headers == AttributeHeaders(source, LoadHeaderAttributes(md).value)
                      && (r.value.success <==> ignoreDllResources || LoadHeaderAttributes(md).value == [])
                      && r.value.reported == reported
  {
    var attributes :- LoadHeaderAttributes(md);
    Ok(HeadersOutcome(AttributeHeaders(source, attributes), ignoreDllResources || |attributes| == 0, reported))
  }

  /** The headers overload of LoadReferencedAssembly. The embedded resource
      is only consulted when `ignoreDllResources` is false; when it yields
      no compilation, for whatever reason, the attributes are read instead.
      Exceptions other than those of the deserializer escape. */
  function LoadReferencedHeaders(fileId: Option<string>, fileExists: bool, pe: PEFile, ignoreDllResources: bool,
                                 deserialize: Deserializer, onException: bool): (r: Result<HeadersOutcome, Exception>)
    ensures fileId.None? ==> r == Err(InvalidUri)
    ensures fileId.Some? && !fileExists ==> r == Err(FileNotFound)
    ensures r.Ok? ==> r.value.headers.source == fileId.value
    ensures r.Ok? ==> (r.value.headers.NamespaceHeaders? <==>
                         !ignoreDllResources && FromResource(pe, deserialize, onException).Ok?
                         && FromResource(pe, deserialize, onException).value.success)
    ensures r.Ok? && r.value.headers.AttributeHeaders? ==>
              && LoadHeaderAttributes(pe.metadata) == Ok(r.value.headers.attributes)
              && (r.value.success <==> ignoreDllResources || r.value.headers.attributes == [])
    ensures r.Ok? && r.value.headers.NamespaceHeaders? ==>
              && r.value.success
              && var c := FromResource(pe, deserialize, onException).value.compilation.value;
                 c.namespaces == Initialized(r.value.headers.namespaces)
    ensures fileId.Some? && fileExists ==>
              var loaded := FromResource(pe, deserialize, onException);
              var fallback := ignoreDllResources || (loaded.Ok? && !loaded.value.success);
              && (r.Err? <==> (!ignoreDllResources && loaded.Err?) || (fallback && LoadHeaderAttributes(pe.metadata).Err?))
              && (r.Err? ==> r.error == if !ignoreDllResources && loaded.Err? then loaded.error
                                        else LoadHeaderAttributes(pe.metadata).error)
  {
    if fileId.None? then Err(InvalidUri)
    else if !fileExists then Err(FileNotFound)
    else if ignoreDllResources then HeadersFromAttributes(fileId.value, pe.metadata, true, [])
    else
      var loaded :- FromResource(pe, deserialize, onException);
      if !loaded.success then HeadersFromAttributes(fileId.value, pe.metadata, false, loaded.reported)
      else Ok(HeadersOutcome(NamespaceHeaders(fileId.value, LoadedNamespaces(loaded.compilation)), true, loaded.reported))
  }

  /** The path overload of LoadReferencedAssembly: only the embedded
      resource is consulted. Any exception FromResource throws is caught,
      handed to the callback, and turned into false with no compilation. */
  function LoadReferencedCompilation(fileExists: bool, pe: PEFile, deserialize: Deserializer, onException: bool): (r: Result<LoadOutcome, Exception>)
    ensures r.Err? <==> !fileExists
    ensures r.Err? ==> r.error == FileNotFound
    ensures r.Ok? && r.value.success ==> r.value.compilation.Some? && IsDefined(r.value.compilation.value)
    ensures fileExists && FromResource(pe, deserialize, onException).Err? ==>
              r == Ok(LoadOutcome(false, None, if onException then [FromResource(pe, deserialize, onException).error] else []))
    ensures fileExists && FromResource(pe, deserialize, onException).Ok? ==>
              r == FromResource(pe, deserialize, onException)
  {
    if !fileExists then Err(FileNotFound)
    else
      match FromResource(pe, deserialize, onException)
      case Ok(loaded) => Ok(loaded)
      case Err(e) => Ok(LoadOutcome(false, None, if onException then [e] else []))
  }

  // -------------------------------------------------------------------------
  // Routing properties of the headers overload

  /** With `ignoreDllResources` the headers come from the attributes alone
      and the load succeeds even with zero attributes, whether or not the
      assembly embeds a compilation. */
  lemma IgnoringResourcesReadsAttributes(id: string, pe: PEFile, deserialize: Deserializer, onException: bool, attributes: seq<HeaderAttribute>)
    requires LoadHeaderAttributes(pe.metadata) == Ok(attributes)
    ensures LoadReferencedHeaders(Some(id), true, pe, true, deserialize, onException)
            == Ok(HeadersOutcome(AttributeHeaders(id, attributes), true, []))
  {
  }

  /** Without an embedded payload the attributes are read, and the load
      reports success exactly when there are none. */
  lemma MissingResourceFallsBack(id: string, pe: PEFile, deserialize: Deserializer, onException: bool, attributes: seq<HeaderAttribute>)
    requires NoEmbeddedPayload(pe)
    requires LoadHeaderAttributes(pe.metadata) == Ok(attributes)
    ensures LoadReferencedHeaders(Some(id), true, pe, false, deserialize, onException)
            == Ok(HeadersOutcome(AttributeHeaders(id, attributes), attributes == [], []))
  {
  }

  /** A resource that is found but does not deserialise to a defined
      compilation also sends the load to the attributes, carrying along
      what the callback was handed. */
  lemma FailedDeserializationFallsBack(id: string, pe: PEFile, deserialize: Deserializer, onException: bool, attributes: seq<HeaderAttribute>)
    requires FromResource(pe, deserialize, onException).Ok? && !FromResource(pe, deserialize, onException).value.success
    requires LoadHeaderAttributes(pe.metadata) == Ok(attributes)
    ensures LoadReferencedHeaders(Some(id), true, pe, false, deserialize, onException)
            == Ok(HeadersOutcome(AttributeHeaders(id, attributes), attributes == [],
                                 FromResource(pe, deserialize, onException).value.reported))
  {
  }

  /** An out-of-range payload or a duplicated resource name is not caught
      by the headers overload: the exception escapes. */
  lemma ResourceExceptionEscapesHeaders(id: string, pe: PEFile, deserialize: Deserializer, onException: bool)
    requires FromResource(pe, deserialize, onException).Err?
    ensures LoadReferencedHeaders(Some(id), true, pe, false, deserialize, onException)
            == Err(FromResource(pe, deserialize, onException).error)
  {
  }

  /** On the attribute path, whether taken because resources are ignored
      or because the resource yielded nothing, an exception from a record
      escapes as itself. */
  lemma AttributeExceptionEscapesHeaders(id: string, pe: PEFile, ignoreDllResources: bool, deserialize: Deserializer, onException: bool)
    requires ignoreDllResources
             || (FromResource(pe, deserialize, onException).Ok? && !FromResource(pe, deserialize, onException).value.success)
    requires LoadHeaderAttributes(pe.metadata).Err?
    ensures LoadReferencedHeaders(Some(id), true, pe, ignoreDllResources, deserialize, onException)
            == Err(LoadHeaderAttributes(pe.metadata).error)
  {
  }

  /** A loaded compilation gives headers made of its namespaces. */
  lemma EmbeddedCompilationGivesNamespaces(id: string, pe: PEFile, deserialize: Deserializer, onException: bool,
                                           c: QsCompilation, reported: seq<Exception>)
    requires FromResource(pe, deserialize, onException) == Ok(LoadOutcome(true, Some(c), reported))
    ensures c.namespaces.Initialized?
    ensures LoadReferencedHeaders(Some(id), true, pe, false, deserialize, onException)
            == Ok(HeadersOutcome(NamespaceHeaders(id, c.namespaces.items), true, reported))
  {
  }

  /** The callback only observes: whether one is given changes neither the
      headers nor the returned boolean of the headers overload. */
  lemma {:induction false} CallbackDoesNotChangeHeaders(fileId: Option<string>, fileExists: bool, pe: PEFile, ignoreDllResources: bool, deserialize: Deserializer)
    ensures var withCallback := LoadReferencedHeaders(fileId, fileExists, pe, ignoreDllResources, deserialize, true);
            var without := LoadReferencedHeaders(fileId, fileExists, pe, ignoreDllResources, deserialize, false);
            && withCallback.Ok? == without.Ok?
            && (withCallback.Err? ==> withCallback.error == without.error)
            && (withCallback.Ok? ==> withCallback.value.headers == without.value.headers
                                     && withCallback.value.success == without.value.success)
  {
    FromResourceIgnoresCallback(pe, deserialize);
  }

  /** FromResource with and without a callback differ only in what is
      reported. */
  lemma FromResourceIgnoresCallback(pe: PEFile, deserialize: Deserializer)
    ensures var a := FromResource(pe, deserialize, true);
            var b := FromResource(pe, deserialize, false);
            && a.Ok? == b.Ok?
            && (a.Err? ==> a.error == b.error)
            && (a.Ok? ==> a.value.success == b.value.success && a.value.compilation == b.value.compilation)
  {
    match LocateResource(pe)
    case Err(_) =>
    case Ok(NoEmbeddedResource) =>
    case Ok(Embedded(resource, dir)) =>
      var payload := ExtractPayload(pe.image, AbsoluteOffset(resource, dir));
      if payload.Ok? {
        CallbackDoesNotChangeLoad(payload.value, deserialize);
      }
  }

  // -------------------------------------------------------------------------
  // Properties of the path overload

  /** The path overload never falls back: the assembly's custom attributes
      have no influence on its result. */
  lemma CompilationIgnoresAttributes(fileExists: bool, pe: PEFile, attributes: seq<CustomAttribute>, deserialize: Deserializer, onException: bool)
    ensures LoadReferencedCompilation(fileExists, pe.(metadata := pe.metadata.(assemblyAttributes := attributes)), deserialize, onException)
            == LoadReferencedCompilation(fileExists, pe, deserialize, onException)
  {
    var pe' := pe.(metadata := pe.metadata.(assemblyAttributes := attributes));
    assert LocateResource(pe') == LocateResource(pe);
  }

  /** The callback only observes in the path overload as well. */
  lemma CallbackDoesNotChangeCompilation(fileExists: bool, pe: PEFile, deserialize: Deserializer)
    ensures var a := LoadReferencedCompilation(fileExists, pe, deserialize, true);
            var b := LoadReferencedCompilation(fileExists, pe, deserialize, false);
            && a.Ok? == b.Ok?
            && (a.Ok? ==> a.value.success == b.value.success && a.value.compilation == b.value.compilation)
            && (b.Ok? ==> b.value.reported == [])
  {
    FromResourceIgnoresCallback(pe, deserialize);
  }
}

=== FILE: metadata.dfy ===
/** The already-parsed view of a .NET portable executable that the loader
    works on: the bytes of the image, the resources directory offset from the
    CLI header, and the metadata tables the loader consults (ECMA-335
    Partition II, chapter 22). Table rows are 0-based indices here. */
module Metadata {
  import opened Wrappers

  type byte = b: int | 0 <= b < 0x100

  const TWO_TO_THE_32: int := 0x1_0000_0000
  const INT32_MIN: int := -0x8000_0000
  const INT32_MAX: int := 0x7FFF_FFFF

  type int32 = x: int | -0x8000_0000 <= x <= 0x7FFF_FFFF
  type uint32 = x: int | 0 <= x < 0x1_0000_0000

  /** The whole PE image as a managed array; its length is a C# `int`. */
  type Image = s: seq<byte> | |s| <= 0x7FFF_FFFF

  /** C# unchecked narrowing to `int`: keeps the low 32 bits as a
      two's-complement value. */
  function ToInt32(x: int): (r: int32)
    ensures (r - x) % TWO_TO_THE_32 == 0
    ensures INT32_MIN <= x <= INT32_MAX ==> r == x
  {
    var m := x % TWO_TO_THE_32;
    if m <= INT32_MAX then m else m - TWO_TO_THE_32
  }

  /** The exceptions the modelled code can throw or catch. */
  datatype Exception =
    | FileNotFound                          // File.Exists failed
    | InvalidUri                            // the URI does not name a local file
    | ContentOutOfBounds                    // PEMemoryBlock.GetContent range check
    | DuplicateResourceName(name: string)   // ToImmutableDictionary on equal keys
    | BadHandle                             // a handle to a row the table lacks
    | InvalidCast                           // a MemberRef parent that is no TypeRef
    | VerifyFailed                          // QsCompilerError.Verify
    | BlobTooShort                          // a BlobReader read past the end
    | InvalidSerializedString               // neither a PackedLen nor 0xFF
    | Deserialization(cause: string)        // thrown by the BSON deserializer

  /** The Implementation coded index of a ManifestResource row (ECMA-335
      Partition II, section 22.24): nil when the resource is in this file. */
  datatype Implementation =
    | Nil
    | FileRow(row: nat)
    | AssemblyRefRow(row: nat)
    | ExportedTypeRow(row: nat)

  datatype ManifestResource = ManifestResource(name: string, offset: uint32, implementation: Implementation)

  datatype TypeDefinition = TypeDefinition(namespace: string, name: string)

  /** A MethodDef row with the TypeDef row that declares it. */
  datatype MethodDefinition = MethodDefinition(declaringType: nat)

  datatype TypeReference = TypeReference(namespace: string, name: string)

  /** The MemberRefParent coded index (ECMA-335 Partition II, section 24.2.6). */
  datatype MemberRefParent =
    | ParentTypeDef(row: nat)
    | ParentTypeRef(row: nat)
    | ParentModuleRef(row: nat)
    | ParentMethodDef(row: nat)
    | ParentTypeSpec(row: nat)

  datatype MemberReference = MemberReference(parent: MemberRefParent)

  /** The constructor handle of a custom attribute. ECMA-335 Partition II,
      section 22.10 only allows the first two; `OtherHandle` is any other
      handle kind the reader could hand back. */
  datatype EntityHandle =
    | MethodDefHandle(row: nat)
    | MemberRefHandle(row: nat)
    | OtherHandle

  /** A CustomAttribute row: its constructor and its value blob. */
  datatype CustomAttribute = CustomAttribute(ctor: EntityHandle, value: seq<byte>)

  /** The tables the loader reads through a MetadataReader; string heap
      entries are already resolved to strings. `assemblyAttributes` are the
      custom attributes of the Assembly row, in table order. */
  datatype MetadataReader = MetadataReader(
    typeDefinitions: seq<TypeDefinition>,
    methodDefinitions: seq<MethodDefinition>,
    typeReferences: seq<TypeReference>,
    memberReferences: seq<MemberReference>,
    manifestResources: seq<ManifestResource>,
    assemblyAttributes: seq<CustomAttribute>)

  /** A PEReader: the resources directory offset, when the section table
      maps the CLI header's resources directory, the entire image, and the
      metadata. */
  datatype PEFile = PEFile(
    resourcesDirectoryOffset: Option<int32>,
    image: Image,
    metadata: MetadataReader)
}

=== FILE: resources.dfy ===
/** Locating the compilation embedded as a manifest resource and extracting
    its length-prefixed payload (FromResource and its Resources helper). */
module ResourceLocator {
  import opened Wrappers
  import opened Metadata
  import opened Blob
  import opened SyntaxTreeLoader

  /** The reserved resource name under which the Q# compiler embeds the
      compilation (DotnetCoreDll.ResourceName). */
  const ResourceName: string := "__qsharp_data__.bson"

  predicate NamesDistinct(rs: seq<ManifestResource>) {
    forall i, j :: 0 <= i < j < |rs| ==> rs[i].name != rs[j].name
  }

  /** The names of the resources. */
  function Names(rs: seq<ManifestResource>): set<string> {
    set i | 0 <= i < |rs| :: rs[i].name
  }

  /** How names and distinctness extend by one more resource. */
  lemma NamesSnoc(rs: seq<ManifestResource>)
    requires |rs| > 0
    ensures var init := rs[..|rs| - 1];
            && Names(rs) == Names(init) + {rs[|rs| - 1].name}
            && (NamesDistinct(rs) <==> NamesDistinct(init) && rs[|rs| - 1].name !in Names(init))
  {
    var init := rs[..|rs| - 1];
    assert forall i :: 0 <= i < |init| ==> init[i] == rs[i];
    assert rs == init + [rs[|rs| - 1]];
  }

  /** Adding the last resource to the table of the others keys every
      resource by its name. */
  lemma ExtendTable(rs: seq<ManifestResource>, prior: map<string, ManifestResource>)
    requires |rs| > 0
    requires var init := rs[..|rs| - 1];
             && prior.Keys == Names(init)
             && (forall i :: 0 <= i < |init| ==> prior[init[i].name] == init[i])
    requires rs[|rs| - 1].name !in prior
    ensures var table := prior[rs[|rs| - 1].name := rs[|rs| - 1]];
            && table.Keys == Names(rs)
            && forall i :: 0 <= i < |rs| ==> table[rs[i].name] == rs[i]
  {
    var init := rs[..|rs| - 1];
    NamesSnoc(rs);
    var table := prior[rs[|rs| - 1].name := rs[|rs| - 1]];
    forall i | 0 <= i < |rs|
      ensures table[rs[i].name] == rs[i]
    {
      if i < |init| {
        assert rs[i] == init[i];
      }
    }
  }

  /** The manifest resources keyed by name. Building the immutable
      dictionary throws on the first name seen twice. */
  function Resources(rs: seq<ManifestResource>): (r: Result<map<string, ManifestResource>, Exception>)
    ensures r.Ok? <==> NamesDistinct(rs)
    ensures r.Ok? ==> r.value.Keys == Names(rs)
    ensures r.Ok? ==> forall i :: 0 <= i < |rs| ==> r.value[rs[i].name] == rs[i]
    ensures r.Err? ==> r.error.DuplicateResourceName?
                       && exists i, j :: 0 <= i < j < |rs| && rs[i].name == r.error.name && rs[j].name == r.error.name
  {
    if |rs| == 0 then Ok(map[])
    else
      var init := rs[..|rs| - 1];
      var last := rs[|rs| - 1];
      NamesSnoc(rs);
      match Resources(init)
      case Err(e) =>
        var i, j :| 0 <= i < j < |init| && init[i].name == e.name && init[j].name == e.name;
        assert rs[i] == init[i] && rs[j] == init[j];
        Err(e)
      case Ok(prior) =>
        if last.name in prior then
          var i :| 0 <= i < |init| && init[i].name == last.name;
          assert rs[i] == init[i];
          Err(DuplicateResourceName(last.name))
        else
          ExtendTable(rs, prior);
          Ok(prior[last.name := last])
  }

  /** What the three-way check of FromResource finds. */
  datatype Lookup = NoEmbeddedResource | Embedded(resource: ManifestResource, directoryOffset: int32)

  /** The container has no usable embedded payload: no resources directory,
      or no resource with the reserved name whose implementation is nil. */
  predicate NoEmbeddedPayload(pe: PEFile) {
    var rs := pe.metadata.manifestResources;
    pe.resourcesDirectoryOffset.None?
    || (NamesDistinct(rs) && forall i :: 0 <= i < |rs| && rs[i].name == ResourceName ==> !rs[i].implementation.Nil?)
  }

  /** The three-way conjunctive check: a resources directory offset, a
      resource with the reserved name, and a nil implementation (the
      resource lives in this file). The resource table is only built when
      the directory offset exists. */
  function LocateResource(pe: PEFile): (r: Result<Lookup, Exception>)
    ensures r.Err? <==> pe.resourcesDirectoryOffset.Some? && !NamesDistinct(pe.metadata.manifestResources)
    ensures r.Err? ==> r == Err(Resources(pe.metadata.manifestResources).error)
    ensures r == Ok(NoEmbeddedResource) <==> NoEmbeddedPayload(pe)
    ensures r.Ok? && r.value.Embedded? ==>
              && pe.resourcesDirectoryOffset == Some(r.value.directoryOffset)
              && r.value.resource in pe.metadata.manifestResources
              && r.value.resource.name == ResourceName
              && r.value.resource.implementation.Nil?
  {
    match pe.resourcesDirectoryOffset
    case None => Ok(NoEmbeddedResource)
    case Some(dir) =>
      var table :- Resources(pe.metadata.manifestResources);
      if ResourceName !in table || !table[ResourceName].implementation.Nil? then Ok(NoEmbeddedResource)
      else Ok(Embedded(table[ResourceName], dir))
  }

  /** The resource offset, narrowed to `int`, plus the directory offset, in
      unchecked 32-bit arithmetic. */
  function AbsoluteOffset(resource: ManifestResource, directoryOffset: int32): (r: int32)
    ensures (r - (resource.offset + directoryOffset)) % TWO_TO_THE_32 == 0
    ensures resource.offset + directoryOffset <= INT32_MAX && directoryOffset >= 0 ==> r == resource.offset + directoryOffset
  {
    ToInt32(ToInt32(resource.offset) + directoryOffset)
  }

  /** The payload at `offset`: a little-endian Int32 length `L`, then
      exactly `L` bytes. A negative length or a read past the image throws
      instead of truncating. */
  function ExtractPayload(image: Image, offset: int32): (r: Result<seq<byte>, Exception>)
    ensures r.Ok? <==> && 0 <= offset && offset + 4 <= |image|
                       && 0 <= ReadInt32(image[offset..offset + 4])
                       && offset + 4 + ReadInt32(image[offset..offset + 4]) <= |image|
    ensures r.Err? ==> r.error == ContentOutOfBounds
    ensures r.Ok? ==> |r.value| == ReadInt32(image[offset..offset + 4])
                      && r.value == image[offset + 4..offset + 4 + |r.value|]
  {
    var prefix :- GetContent(image, offset, 4);
    assert prefix == image[offset..offset + 4];
    var length := ReadInt32(prefix);
    var data :- GetContent(image, ToInt32(offset + 4), length);
    assert data == image[offset + 4..offset + 4 + length];
    Ok(data)
  }

  /** A payload written with its length prefix at `|before|` is extracted
      exactly, whatever surrounds it. */
  lemma {:induction false} ExtractWrittenPayload(before: seq<byte>, payload: seq<byte>, after: seq<byte>)
    requires |before| + 4 + |payload| + |after| <= INT32_MAX
    ensures ExtractPayload(before + EncodeInt32(|payload|) + payload + after, |before|) == Ok(payload)
  {
    var image: Image := before + EncodeInt32(|payload|) + payload + after;
    var o := |before|;
    assert image[o..o + 4] == EncodeInt32(|payload|) + [];
    ReadEncodeInt32(|payload|, []);
    assert image[o + 4..o + 4 + |payload|] == payload;
  }

  /** FromResource: false with no compilation when there is no embedded
      payload; otherwise the result of deserialising the extracted payload.
      Exceptions from the resource table or from out-of-range reads
      escape. */
  function FromResource(pe: PEFile, deserialize: Deserializer, onException: bool): (r: Result<LoadOutcome, Exception>)
    ensures NoEmbeddedPayload(pe) ==> r == Ok(LoadOutcome(false, None, []))
    ensures r.Err? <==> LocateResource(pe).Err?
                        || (LocateResource(pe).Ok? && LocateResource(pe).value.Embedded?
                            && ExtractPayload(pe.image, AbsoluteOffset(LocateResource(pe).value.resource, LocateResource(pe).value.directoryOffset)).Err?)
    ensures r.Ok? && r.value.success ==>
              && !NoEmbeddedPayload(pe)
              && r.value.compilation.Some? && IsDefined(r.value.compilation.value)
              && r.value.reported == []
    ensures r.Err? ==> r.error == (if LocateResource(pe).Err? then LocateResource(pe).error else ContentOutOfBounds)
    ensures r.Ok? && LocateResource(pe).value.Embedded? ==>
              var lookup := LocateResource(pe).value;
              r.value == LoadSyntaxTree(ExtractPayload(pe.image, AbsoluteOffset(lookup.resource, lookup.directoryOffset)).value,
                                        deserialize, onException)
  {
    var lookup :- LocateResource(pe);
    match lookup
    case NoEmbeddedResource => Ok(LoadOutcome(false, None, []))
    case Embedded(resource, dir) =>
      var payload :- ExtractPayload(pe.image, AbsoluteOffset(resource, dir));
      Ok(LoadSyntaxTree(payload, deserialize, onException))
  }

  /** The failure direction of the embedded path: for a reserved, local
      resource pointing at a length-prefixed payload, a throwing
      deserializer gives false, no compilation and its exception for the
      callback; a null result gives false and no compilation; a compilation
      with an uninitialised field gives false together with it. */
  lemma {:induction false} EmbeddedLoadFailures(
    pe: PEFile, i: nat, dir: int32, before: seq<byte>, payload: seq<byte>, after: seq<byte>,
    deserialize: Deserializer, onException: bool)
    requires pe.resourcesDirectoryOffset == Some(dir)
    requires NamesDistinct(pe.metadata.manifestResources)
    requires i < |pe.metadata.manifestResources|
    requires pe.metadata.manifestResources[i].name == ResourceName
    requires pe.metadata.manifestResources[i].implementation.Nil?
    requires |before| == AbsoluteOffset(pe.metadata.manifestResources[i], dir)
    requires |payload| <= INT32_MAX && pe.image == before + EncodeInt32(|payload|) + payload + after
    ensures deserialize(payload).Threw? ==>
              FromResource(pe, deserialize, onException)
              == Ok(LoadOutcome(false, None, if onException then [deserialize(payload).cause] else []))
    ensures deserialize(payload).NullResult? ==> FromResource(pe, deserialize, onException) == Ok(LoadOutcome(false, None, []))
    ensures deserialize(payload).Value? && !IsDefined(deserialize(payload).compilation) ==>
              FromResource(pe, deserialize, onException) == Ok(LoadOutcome(false, Some(deserialize(payload).compilation), []))
  {
    var rs := pe.metadata.manifestResources;
    var table := Resources(rs).value;
    assert table[ResourceName] == rs[i];
    assert LocateResource(pe) == Ok(Embedded(rs[i], dir));
    ExtractWrittenPayload(before, payload, after);
  }

  /** The three failing checks are indistinguishable to the caller: no
      directory offset, no resource named ResourceName, or one whose
      implementation is not nil all give false, no compilation, and no
      report, without reading the image. */
  lemma {:induction false} ThreeWayCheckFailsAlike(pe: PEFile, deserialize: Deserializer, onException: bool, i: nat)
    requires
      || pe.resourcesDirectoryOffset.None?
      || (NamesDistinct(pe.metadata.manifestResources)
          && forall k :: 0 <= k < |pe.metadata.manifestResources| ==> pe.metadata.manifestResources[k].name != ResourceName)
      || (NamesDistinct(pe.metadata.manifestResources)
          && i < |pe.metadata.manifestResources| && pe.metadata.manifestResources[i].name == ResourceName
          && !pe.metadata.manifestResources[i].implementation.Nil?)
    ensures FromResource(pe, deserialize, onException) == Ok(LoadOutcome(false, None, []))
    ensures forall image: Image :: FromResource(pe.(image := image), deserialize, onException) == Ok(LoadOutcome(false, None, []))
  {
    var rs := pe.metadata.manifestResources;
    if pe.resourcesDirectoryOffset.Some? && i < |rs| && rs[i].name == ResourceName && !rs[i].implementation.Nil? {
      forall k | 0 <= k < |rs| && rs[k].name == ResourceName
        ensures !rs[k].implementation.Nil?
      {
        assert k == i;
      }
    }
    assert NoEmbeddedPayload(pe);
    forall image: Image
      ensures FromResource(pe.(image := image), deserialize, onException) == Ok(LoadOutcome(false, None, []))
    {
      assert NoEmbeddedPayload(pe.(image := image));
    }
  }

  /** The embedded path end to end: a container whose reserved, local
      resource points at a length-prefixed serialisation of a defined
      compilation loads that compilation. */
  lemma {:induction false} EmbeddedCompilationLoads(
    pe: PEFile, i: nat, dir: int32, before: seq<byte>, payload: seq<byte>, after: seq<byte>,
    c: QsCompilation, deserialize: Deserializer, onException: bool)
    requires pe.resourcesDirectoryOffset == Some(dir)
    requires NamesDistinct(pe.metadata.manifestResources)
    requires i < |pe.metadata.manifestResources|
    requires pe.metadata.manifestResources[i].name == ResourceName
    requires pe.metadata.manifestResources[i].implementation.Nil?
    requires |before| == AbsoluteOffset(pe.metadata.manifestResources[i], dir)
    requires |payload| <= INT32_MAX && pe.image == before + EncodeInt32(|payload|) + payload + after
    requires IsDefined(c) && deserialize(payload) == Value(c)
    ensures FromResource(pe, deserialize, onException) == Ok(LoadOutcome(true, Some(c), []))
  {
    var rs := pe.metadata.manifestResources;
    var table := Resources(rs).value;
    assert table[ResourceName] == rs[i];
    assert LocateResource(pe) == Ok(Embedded(rs[i], dir));
    ExtractWrittenPayload(before, payload, after);
  }
}

=== FILE: select.dfy ===
/** The SelectNotNull enumeration that LoadHeaderAttributes materialises:
    map every element in order, drop the nulls, and let the first
    exception abort the whole enumeration. */
module Enumeration {
  import opened Wrappers

  /** The elements of `xs` mapped through `f`, nulls dropped. */
  function SelectNotNull<A, B, E>(f: A -> Result<Option<B>, E>, xs: seq<A>): (r: Result<seq<B>, E>)
    ensures r.Ok? <==> forall i :: 0 <= i < |xs| ==> f(xs[i]).Ok?
    ensures r.Ok? ==> |r.value| <= |xs|
  {
    if |xs| == 0 then Ok([])
    else
      var head :- f(xs[0]);
      var tail :- SelectNotNull(f, xs[1..]);
      Ok(Kept(head) + tail)
  }

  /** A failed enumeration fails with the exception of its first failing
      element, at `i`. */
  lemma {:induction false} SelectFirstError<A, B, E>(f: A -> Result<Option<B>, E>, xs: seq<A>) returns (i: nat)
    requires SelectNotNull(f, xs).Err?
    ensures i < |xs| && f(xs[i]) == Err(SelectNotNull(f, xs).error)
    ensures forall j :: 0 <= j < i ==> f(xs[j]).Ok?
    decreases |xs|
  {
    if f(xs[0]).Err? {
      i := 0;
    } else {
      var k := SelectFirstError(f, xs[1..]);
      i := k + 1;
      forall j | 0 <= j < i
        ensures f(xs[j]).Ok?
      {
        if j > 0 {
          assert xs[j] == xs[1..][j - 1];
        }
      }
    }
  }

  /** What one element contributes: nothing for null. */
  function Kept<B>(o: Option<B>): seq<B> {
    if o.Some? then [o.value] else []
  }

  lemma SelectStep<A, B, E>(f: A -> Result<Option<B>, E>, xs: seq<A>)
    requires |xs| > 0
    requires f(xs[0]).Ok? && SelectNotNull(f, xs[1..]).Ok?
    ensures SelectNotNull(f, xs) == Ok(Kept(f(xs[0]).value) + SelectNotNull(f, xs[1..]).value)
  {
  }

  /** `out` is exactly the non-null results of `f` on `xs` in input order:
      `idx` lists, increasing, the elements that produced an output, and
      every element that produced one is listed. */
  ghost predicate IsSelection<A, B, E>(f: A -> Result<Option<B>, E>, xs: seq<A>, out: seq<B>, idx: seq<nat>) {
    && |idx| == |out|
    && (forall k :: 0 <= k < |idx| ==> idx[k] < |xs| && f(xs[idx[k]]) == Ok(Some(out[k])))
    && (forall k, l :: 0 <= k < l < |idx| ==> idx[k] < idx[l])
    && (forall i :: 0 <= i < |xs| && f(xs[i]).Ok? && f(xs[i]).value.Some? ==> i in idx)
  }

  /** Every index moved one place to the right. */
  function Shift(s: seq<nat>): (r: seq<nat>)
    ensures |r| == |s| && forall k :: 0 <= k < |s| ==> r[k] == s[k] + 1
  {
    if |s| == 0 then [] else [s[0] + 1] + Shift(s[1..])
  }

  /** The indices of a selection of `xs[1..]`, seen in `xs`, with 0 in
      front when the first element produced an output. */
  function ConsIndices(first: bool, tailIdx: seq<nat>): (idx: seq<nat>)
    ensures |idx| == |tailIdx| + (if first then 1 else 0)
  {
    if first then [0] + Shift(tailIdx) else Shift(tailIdx)
  }

  lemma ConsOutputs<A, B, E>(f: A -> Result<Option<B>, E>, xs: seq<A>, tailOut: seq<B>, tailIdx: seq<nat>)
    requires |xs| > 0 && f(xs[0]).Ok?
    requires IsSelection(f, xs[1..], tailOut, tailIdx)
    ensures var idx := ConsIndices(f(xs[0]).value.Some?, tailIdx);
            var out := Kept(f(xs[0]).value) + tailOut;
            |idx| == |out| && forall k :: 0 <= k < |idx| ==> idx[k] < |xs| && f(xs[idx[k]]) == Ok(Some(out[k]))
  {
    var head := f(xs[0]).value;
    var idx := ConsIndices(head.Some?, tailIdx);
    var out := Kept(head) + tailOut;
    var d := |idx| - |tailIdx|;
    forall k | 0 <= k < |idx|
      ensures idx[k] < |xs| && f(xs[idx[k]]) == Ok(Some(out[k]))
    {
      if k < d {
        assert idx[k] == 0 && out[k] == head.value;
      } else {
        assert idx[k] == tailIdx[k - d] + 1 && out[k] == tailOut[k - d];
        assert xs[1..][tailIdx[k - d]] == xs[idx[k]];
      }
    }
  }

  lemma ConsIncreasing(first: bool, tailIdx: seq<nat>)
    requires forall k, l :: 0 <= k < l < |tailIdx| ==> tailIdx[k] < tailIdx[l]
    ensures var idx := ConsIndices(first, tailIdx);
            forall k, l :: 0 <= k < l < |idx| ==> idx[k] < idx[l]
  {
    var idx := ConsIndices(first, tailIdx);
    var d := |idx| - |tailIdx|;
    forall k, l | 0 <= k < l < |idx|
      ensures idx[k] < idx[l]
    {
      if k >= d {
        assert idx[k] == tailIdx[k - d] + 1 && idx[l] == tailIdx[l - d] + 1;
      }
    }
  }

  lemma ConsComplete<A, B, E>(f: A -> Result<Option<B>, E>, xs: seq<A>, tailOut: seq<B>, tailIdx: seq<nat>)
    requires |xs| > 0 && f(xs[0]).Ok?
    requires IsSelection(f, xs[1..], tailOut, tailIdx)
    ensures var idx := ConsIndices(f(xs[0]).value.Some?, tailIdx);
            forall i :: 0 <= i < |xs| && f(xs[i]).Ok? && f(xs[i]).value.Some? ==> i in idx
  {
    var idx := ConsIndices(f(xs[0]).value.Some?, tailIdx);
    var d := |idx| - |tailIdx|;
    forall i | 0 <= i < |xs| && f(xs[i]).Ok? && f(xs[i]).value.Some?
      ensures i in idx
    {
      if i == 0 {
        assert idx[0] == 0;
      } else {
        assert xs[1..][i - 1] == xs[i];
        assert i - 1 in tailIdx;
        var k :| 0 <= k < |tailIdx| && tailIdx[k] == i - 1;
        assert idx[k + d] == i;
      }
    }
  }

  /** The output of SelectNotNull is a selection of its input: the
      non-null results, in order, none merged or dropped. */
  lemma {:induction false} SelectedInOrder<A, B, E>(f: A -> Result<Option<B>, E>, xs: seq<A>) returns (idx: seq<nat>)
    requires SelectNotNull(f, xs).Ok?
    ensures IsSelection(f, xs, SelectNotNull(f, xs).value, idx)
    decreases |xs|
  {
    if |xs| == 0 {
      idx := [];
    } else {
      var tailIdx := SelectedInOrder(f, xs[1..]);
      SelectStep(f, xs);
      var tailOut := SelectNotNull(f, xs[1..]).value;
      idx := ConsIndices(f(xs[0]).value.Some?, tailIdx);
      ConsOutputs(f, xs, tailOut, tailIdx);
      ConsIncreasing(f(xs[0]).value.Some?, tailIdx);
      ConsComplete(f, xs, tailOut, tailIdx);
    }
  }

  /** Selection is compositional: the output of a concatenation is the
      output of the first part followed by that of the second. */
  lemma {:induction false} SelectAppend<A, B, E>(f: A -> Result<Option<B>, E>, a: seq<A>, b: seq<A>)
    requires SelectNotNull(f, a).Ok? && SelectNotNull(f, b).Ok?
    ensures SelectNotNull(f, a + b) == Ok(SelectNotNull(f, a).value + SelectNotNull(f, b).value)
    decreases |a|
  {
    if |a| == 0 {
      assert a + b == b;
      assert SelectNotNull(f, a) == Ok([]);
      assert [] + SelectNotNull(f, b).value == SelectNotNull(f, b).value;
    } else {
      var x, t := a[0], a[1..];
      SelectTail(f, a);
      SplitFirst(a, b);
      SelectAppend(f, t, b);
      SelectCons(f, x, t);
      SelectCons(f, x, t + b);
      var h, rt, rb := Kept(f(x).value), SelectNotNull(f, t).value, SelectNotNull(f, b).value;
      Associative(h, rt, rb);
    }
  }

  /** A non-empty sequence followed by another is its first element
      followed by the rest of both. */
  lemma SplitFirst<A>(a: seq<A>, b: seq<A>)
    requires |a| > 0
    ensures a == [a[0]] + a[1..]
    ensures a + b == [a[0]] + (a[1..] + b)
  {
  }

  lemma Associative<B>(h: seq<B>, s: seq<B>, t: seq<B>)
    ensures h + (s + t) == (h + s) + t
  {
  }

  /** A successful enumeration handles its first element and its tail. */
  lemma SelectTail<A, B, E>(f: A -> Result<Option<B>, E>, xs: seq<A>)
    requires |xs| > 0 && SelectNotNull(f, xs).Ok?
    ensures f(xs[0]).Ok? && SelectNotNull(f, xs[1..]).Ok?
  {
  }

  /** One step of the enumeration, on an explicit first element. */
  lemma SelectCons<A, B, E>(f: A -> Result<Option<B>, E>, x: A, xs: seq<A>)
    requires f(x).Ok? && SelectNotNull(f, xs).Ok?
    ensures SelectNotNull(f, [x] + xs) == Ok(Kept(f(x).value) + SelectNotNull(f, xs).value)
  {
    var ys := [x] + xs;
    assert ys[0] == x && ys[1..] == xs;
    SelectStep(f, ys);
  }

  /** Nothing is deduplicated: an element repeated yields its output twice. */
  lemma NoDeduplication<A, B, E>(f: A -> Result<Option<B>, E>, x: A, y: B)
    requires f(x) == Ok(Some(y))
    ensures SelectNotNull(f, [x, x]) == Ok([y, y])
  {
    assert [x][1..] == [];
    assert SelectNotNull(f, []) == Ok([]);
    SelectStep(f, [x]);
    assert SelectNotNull(f, [x]) == Ok([y] + []);
    assert [y] + [] == [y];
    assert [x, x][1..] == [x];
    SelectStep(f, [x, x]);
    assert SelectNotNull(f, [x, x]) == Ok([y] + [y]);
    assert [y] + [y] == [y, y];
  }
}

=== FILE: syntax_tree.dfy ===
/** Deserialising the embedded compilation (LoadSyntaxTree). The BSON
    deserializer is a parameter: the model keeps only what LoadSyntaxTree
    checks of its result. */
module SyntaxTreeLoader {
  import opened Wrappers
  import opened Metadata

  /** An ImmutableArray: `Default` is the uninitialised struct value, which
      differs from an initialised empty array. */
  datatype ImmutableArray<T> = Default | Initialized(items: seq<T>)

  /** The content of a namespace is opaque to the loader. */
  datatype QsNamespace = QsNamespace(name: string)

  datatype QsQualifiedName = QsQualifiedName(namespace: string, name: string)

  /** The two fields of a QsCompilation the loader inspects. */
  datatype QsCompilation = QsCompilation(
    namespaces: ImmutableArray<QsNamespace>,
    entryPoints: ImmutableArray<QsQualifiedName>)

  /** What Json.Serializer.Deserialize does with a payload: throw, return
      null, or return a compilation. */
  datatype Deserialized = Threw(cause: Exception) | NullResult | Value(compilation: QsCompilation)

  type Deserializer = seq<byte> -> Deserialized

  /** Outcome of a load: the returned boolean, the `out` compilation, and
      the exceptions handed to the caller's callback, in order. */
  datatype LoadOutcome = LoadOutcome(success: bool, compilation: Option<QsCompilation>, reported: seq<Exception>)

  /** Both required fields are initialised (possibly empty). */
  predicate IsDefined(c: QsCompilation) {
    c.namespaces.Initialized? && c.entryPoints.Initialized?
  }

  /** LoadSyntaxTree: succeeds exactly when deserialisation returns a
      compilation whose namespaces and entry points are both initialised.
      The `out` compilation is whatever was deserialised, so it can be
      present on failure; only a throwing deserializer leaves it null and
      reports its exception, and only when a callback is given. */
  function LoadSyntaxTree(payload: seq<byte>, deserialize: Deserializer, onException: bool): (r: LoadOutcome)
    ensures r.success <==> deserialize(payload).Value? && IsDefined(deserialize(payload).compilation)
    ensures r.success ==> r.compilation == Some(deserialize(payload).compilation)
    ensures r.compilation.None? <==> !deserialize(payload).Value?
    ensures r.compilation.Some? ==> deserialize(payload) == Value(r.compilation.value)
    ensures |r.reported| <= 1
    ensures r.reported != [] <==> onException && deserialize(payload).Threw?
    ensures r.reported != [] ==> r.reported[0] == deserialize(payload).cause
  {
    match deserialize(payload)
    case Threw(e) => LoadOutcome(false, None, if onException then [e] else [])
    case NullResult => LoadOutcome(false, None, [])
    case Value(c) => LoadOutcome(IsDefined(c), Some(c), [])
  }

  /** The callback only observes: whether one is given changes neither the
      returned boolean nor the compilation. */
  lemma CallbackDoesNotChangeLoad(payload: seq<byte>, deserialize: Deserializer)
    ensures LoadSyntaxTree(payload, deserialize, true).success == LoadSyntaxTree(payload, deserialize, false).success
    ensures LoadSyntaxTree(payload, deserialize, true).compilation == LoadSyntaxTree(payload, deserialize, false).compilation
    ensures LoadSyntaxTree(payload, deserialize, false).reported == []
  {
  }

  /** Empty but initialised collections count as defined. */
  lemma EmptyCompilationLoads(payload: seq<byte>, deserialize: Deserializer)
    requires deserialize(payload) == Value(QsCompilation(Initialized([]), Initialized([])))
    ensures LoadSyntaxTree(payload, deserialize, false).success
  {
  }

  /** A payload the deserializer maps to a defined compilation is loaded
      as exactly that compilation, with nothing reported. This is about the
      loader's checks only; no serialisation round trip is proved. */
  lemma DeserializedCompilationLoads(c: QsCompilation, payload: seq<byte>, deserialize: Deserializer, onException: bool)
    requires IsDefined(c)
    requires deserialize(payload) == Value(c)
    ensures LoadSyntaxTree(payload, deserialize, onException) == LoadOutcome(true, Some(c), [])
  {
  }
}

=== FILE: wrappers.dfy ===
/** Failure-compatible wrappers used throughout the model: `Option` for the
    source's nullable results and `Result` for calls that may throw. */
module Wrappers {

  /** A value that may be absent (the source's `null`). */
  datatype Option<+T> = None | Some(value: T)

  /** Either a value or the exception a call throws. */
  datatype Result<+T, +E> = Ok(value: T) | Err(error: E) {

    predicate IsFailure() {
      Err?
    }

    function PropagateFailure<U>(): Result<U, E>
      requires Err?
    {
      Err(error)
    }

    function Extract(): T
      requires Ok?
    {
      value
    }
  }
}
